=== FILE: README.md ===
# JavBus discover: a Dafny model

This project models the logic of the JavBus discover plugin (`JavDiscover`),
which exposes an upstream movie catalogue as a "discover" source of a media
manager. The modelled core is the discovery endpoint `javbus_discover`:

1. the caller's `apikey` is compared with the process-wide API token; a
   mismatch answers `[]` with no upstream call;
2. the upstream page is reconciled with the caller's `page` and `count`
   against the upstream page size of 500 (`page - 1`, or `500 // count` once
   `page * count > 500`);
3. the upstream client is called through two stacked memo layers, and any
   error it raises becomes `[]`;
4. an absent or empty `movies` list becomes `[]`;
5. each record is mapped to a `MediaInfo` by `__movie_to_media`;
6. the mapped list is cut to `results[(page-1)*count : page*count]`.

It also models the `discover_source` event handler, which appends one JavBus
source descriptor to the host's `extra_sources` list.

Modules, leaf first:

- `Basics`: `Option` and `Result`.
- `PyText`: record field values, `dict.get`, and Python's `str()` of `None`,
  bools, ints and strings, with a decimal parser as its inverse.
- `Paging`: Python's floor division and slice semantics (negative indices
  included), the upstream page formula and the caller's window.
- `Upstream`: filters, the upstream query, the HTTP exchange and the client's
  three raised errors (no response, failing status, undecodable body).
- `Mapper`: `MediaInfo` and the record mapper, with a reader that takes the
  `"name (year)"` string apart again.
- `Lru`: a bounded least-recently-used memo.
- `ResultCache`: the two memo layers around the client call.
- `Discovery`: the endpoint, direct and cached.
- `SourceEvent`: the event handler and its descriptor.

The HTTP client is a parameter `fetch: Query -> Response`. The API token, the
`enabled` flag and the configured `api_key` are parameters too.

Worth knowing about the code's behaviour:

- The first caller page asks for upstream page `0`.
- Caller page p is cut at offset `(p-1)*count` from upstream page `p-1`, so
  consecutive caller pages skip records; see
  `Discovery.ConsecutivePagesSkipRecords`.
- The decorator with capacity 1 is the outer layer, so it is consulted before
  the capacity-32 layer.
- `count` bounds the length of the answer only when `count >= 0`. A negative
  `count` from the query string gives a long slice; see
  `Paging.NegativeCountOverflows`.
- Line 191 of the source has a stray `"` after `movie_info.get('img')`, so
  that file does not parse as written. The model takes the intended reading,
  `poster_path = img`.

## Model

| member | source | states |
|---|---|---|
| PyText.ParseIntToString | plugins.v2/tvdbdiscover/__init__.py:189-190 | `str()` of an int loses nothing: reading its decimal text back gives the int |
| PyText.IntToStringInjective | plugins.v2/tvdbdiscover/__init__.py:190 | two distinct ints never render as the same media id text |
| PyText.NatToString | plugins.v2/tvdbdiscover/__init__.py:189-190 | the decimal text of a natural is non-empty, all digits, with no leading zero |
| Paging.FloorDiv | plugins.v2/tvdbdiscover/__init__.py:200 | `//` rounds toward negative infinity, for divisors of either sign |
| Paging.ReqPageWithinWindow | plugins.v2/tvdbdiscover/__init__.py:199-202 | while `page * count <= 500` the upstream page is `page - 1` |
| Paging.ReqPageBeyondWindow | plugins.v2/tvdbdiscover/__init__.py:199-200 | past 500 records the upstream page does not depend on the caller page, and is the number of whole pages of `count` in 500 |
| Paging.ReqPageIsMin | plugins.v2/tvdbdiscover/__init__.py:199-202 | for `page, count >= 1` the upstream page is `min(page - 1, 500 // count)` and lies in [0, 500] |
| Paging.OnlyFirstPageAsksPageZero | plugins.v2/tvdbdiscover/__init__.py:199-202 | with pages of 30 the upstream page is 0 only for caller page 1 |
| Paging.PySlice | plugins.v2/tvdbdiscover/__init__.py:222 | a slice is the contiguous run of the list from its normalised start to its normalised stop, empty when the stop is not past the start |
| Paging.WindowClipped | plugins.v2/tvdbdiscover/__init__.py:222 | for `page >= 1` and `count >= 0` the window is the list from `min(s, n)` to `min(e, n)`, empty once `s >= n` |
| Paging.WindowElements | plugins.v2/tvdbdiscover/__init__.py:222 | for `page >= 1` and `count >= 0` the window has `min(e, n) - min(s, n)` items and its k-th is the list's item `s + k` |
| Paging.WindowLength | plugins.v2/tvdbdiscover/__init__.py:222 | for any page, even zero or negative, a window holds at most `count` items when `count >= 0` |
| Paging.NegativeCountOverflows | plugins.v2/tvdbdiscover/__init__.py:222 | with `count = -5` page 1 of 45 records holds 40 items, more than `count` |
| Paging.PagesTile | plugins.v2/tvdbdiscover/__init__.py:222 | windows 1..p of one list laid end to end are its first `p * count` items |
| Paging.WindowExample | plugins.v2/tvdbdiscover/__init__.py:222 | 45 records: page 2 of 30 is indices 30 to 44, page 3 is empty |
| Upstream.Request | plugins.v2/tvdbdiscover/__init__.py:161-165 | no response raises a connectivity error, a failing status raises with the response text, otherwise the `movies` field (absent is `None`) |
| Mapper.MovieToMedia | plugins.v2/tvdbdiscover/__init__.py:186-191 | kind is the constant "电影"; title and poster copy `title` and `img`; a missing id renders "None" |
| Mapper.MediaIdRecoversId | plugins.v2/tvdbdiscover/__init__.py:190 | the media id is a string id verbatim, and an int id's text reads back as that int |
| Mapper.LastIndexOf | plugins.v2/tvdbdiscover/__init__.py:189 | finds the last occurrence of a character, none after it |
| Mapper.SplitTitleYearInverse | plugins.v2/tvdbdiscover/__init__.py:189 | `"name (year)"` is read back into name and year when the year text has no "(" |
| Mapper.TitleYearRecoversYear | plugins.v2/tvdbdiscover/__init__.py:189 | whenever the year's text has no "(" (any int, a missing year, a bool, most strings) the display string gives back `str(name)` and `str(year)`; an int year's part reads back as that int |
| Mapper.MovieToMediaExample | plugins.v2/tvdbdiscover/__init__.py:186-191 | `{id: "X1", title: "T", name: "N", year: 2020, img: "http://p"}` maps to `("电影", "T", "N (2020)", "X1", "http://p")` |
| Mapper.MapMovies | plugins.v2/tvdbdiscover/__init__.py:221 | mapping keeps length and order: item k is the mapping of record k |
| Lru.Empty | plugins.v2/tvdbdiscover/__init__.py:148-150 | a fresh cache is well formed and holds nothing |
| Lru.Remove | plugins.v2/tvdbdiscover/__init__.py:148-150 | dropping a key from the recency list cuts out its one occurrence and keeps every other key, once each, in the same order |
| Lru.Touch | plugins.v2/tvdbdiscover/__init__.py:148-150 | a hit changes no stored value, makes the key the most recently used, and keeps the other keys in their recency order |
| Lru.PutValid | plugins.v2/tvdbdiscover/__init__.py:148-150 | storing keeps the cache within capacity with one entry per key |
| Lru.PutGet | plugins.v2/tvdbdiscover/__init__.py:148-150 | a stored value is read back |
| Lru.PutKeepsOthers | plugins.v2/tvdbdiscover/__init__.py:148-150 | storing one key changes no other key's value, and evicts none when the cache had room |
| Lru.PutEvictsLeastRecent | plugins.v2/tvdbdiscover/__init__.py:148-150 | a full cache storing a new key evicts exactly the least recently used one |
| ResultCache.Initial | plugins.v2/tvdbdiscover/__init__.py:148-150 | the two layers start well formed and holding no key |
| ResultCache.CachedRequest | plugins.v2/tvdbdiscover/__init__.py:148-151 | at most one network call, for the query itself; a hit in either layer makes none and returns the stored records; a miss in both calls the network once with the client's outcome; a raised error always went to the network |
| ResultCache.RememberCoherent | plugins.v2/tvdbdiscover/__init__.py:148-150 | remembering what the client returned keeps a layer faithful to the client |
| ResultCache.CachedRequestTransparent | plugins.v2/tvdbdiscover/__init__.py:148-151 | with faithful caches a cached call returns what a direct call returns, and the caches stay faithful and well formed |
| ResultCache.ColdRepeatCallsOnce | plugins.v2/tvdbdiscover/__init__.py:148-151 | from cold caches, two identical calls whose first returned records reach the network exactly once between them and return the client's records both times |
| ResultCache.RepeatIsServedFromMemory | plugins.v2/tvdbdiscover/__init__.py:148-150 | after a call that returned records, the same call makes no network call and returns the same |
| ResultCache.ErrorIsNotRemembered | plugins.v2/tvdbdiscover/__init__.py:148-165 | a raised error leaves both layers unchanged, so the next call goes to the network again |
| Discovery.Plan | plugins.v2/tvdbdiscover/__init__.py:195-215 | a query goes out iff the token matches; it carries the filters unchanged and an upstream page in [0, 500] for valid input, `page - 1` within the first 500 records |
| Discovery.Finish | plugins.v2/tvdbdiscover/__init__.py:216-222 | a raised error, an absent or an empty list give `[]`; a non-negative `count` bounds the answer; a non-empty answer means the call succeeded |
| Discovery.FinishOfRecords | plugins.v2/tvdbdiscover/__init__.py:219-222 | a successful call's answer is the caller's window of the mapped records, an empty list included |
| Discovery.FinishIsCallerPage | plugins.v2/tvdbdiscover/__init__.py:219-222 | for `page >= 1` and `count >= 0` the answer is the mapped records from index `(page-1)*count`, in order, up to `count` of them |
| Discovery.Discover | plugins.v2/tvdbdiscover/__init__.py:195-222 | a refused token answers `[]` and asks nothing upstream; otherwise exactly one query with the reconciled page goes out; a non-empty answer means the token matched and the call succeeded |
| Discovery.DiscoverCached | plugins.v2/tvdbdiscover/__init__.py:195-218 | a refused token touches neither caches nor network; at most one network call, and only for the filters with the reconciled upstream page; the page size bounds the answer |
| Discovery.CachedAgreesWithDirect | plugins.v2/tvdbdiscover/__init__.py:148-151 | the cached endpoint answers exactly as the direct one while the caches are faithful |
| Discovery.RepeatedRequestIsIdempotent | plugins.v2/tvdbdiscover/__init__.py:148-150 | repeating a request that got records gives the same ordered answer without a network call |
| Discovery.ConsecutivePagesSkipRecords | plugins.v2/tvdbdiscover/__init__.py:199-222 | with pages of 30, caller page 1 is items 0..29 of upstream page 0 and caller page 2 is items 30..59 of upstream page 1 |
| Discovery.OnlyFirstCallerPageReadsPageZero | plugins.v2/tvdbdiscover/__init__.py:199-215 | with pages of 30 only caller page 1 sends a query for upstream page 0, so together with the lemma above items 30..59 of upstream page 0 are never served |
| Discovery.PagingExample | plugins.v2/tvdbdiscover/__init__.py:199-222 | 45 records: page 2 of 30 asks upstream page 1 and answers records 30 to 44; page 3 answers `[]` |
| SourceEvent.OnDiscoverSource | plugins.v2/tvdbdiscover/__init__.py:477-501 | disabled or without a key the list is untouched; otherwise the old entries (none if absent) followed by exactly one JavBus descriptor |
| SourceEvent.DescriptorIsAuthorized | plugins.v2/tvdbdiscover/__init__.py:483 | the route text is the fixed prefix followed by the token, and a request carrying that token passes the token check |

## Left out

- `_proxy` is read from the config (line 44) but never used; the HTTP request (lines 155-160) and the JSON decoding (line 165) are I/O and are the abstract `Response` a `fetch` parameter returns.
- `mtype` is a positional argument of the client (line 204) and is not among the query parameters it sends (line 159); it still keys the cache. The model hands `fetch` the whole call, `mtype` included, which every lemma allows since they hold for any `fetch`.
- The cache layers' time-to-live (30 days and 30 minutes) depends on the wall clock; entries here never expire. Capacity eviction (LRU) is modelled.
- Concurrent access to the shared caches is not modelled; calls are sequential.
- The cache key is the query (filters plus upstream page); the plugin instance that is also part of the real key is a single object.
- Records that are not JSON objects, a `movies` value that is not a list, and field values that are floats, lists or objects are not modelled; a record is a map of `None`, bool, int and string values. In the source a falsy non-list `movies` value (`{}`, `0`, `false`, `""`) still answers `[]` at line 219, and float, list or object values in `name`, `year` or `id` are rendered as text by lines 189-190. Only records that are not dicts, or a non-empty `movies` value that is not a list, make the comprehension at line 221 raise, outside the `try`, out of the endpoint. List or object values in `title` or `img` may be refused by the host's `MediaInfo`.
- The host's `MediaInfo` validation (a non-string title, say) is not modelled; title and poster are copied as the raw field values.
- The error log line (line 217) is a side effect only.
- `get_form`, `javbus_filter_ui`, `get_api`, `init_plugin`, `get_state`, `get_command`, `get_page` and `stop_service` return static data or plumbing; the descriptor's `filter_ui` field is left out with them.
- `settings.API_TOKEN`, `_enabled` and `_api_key` are parameters rather than singletons; `_enabled` is its truthiness.
- SourceEvent.DescriptorIsAuthorized: the token is put into the route's query string without URL escaping (line 483); a token holding `&`, `#`, `+` or `%` is not read back as itself by a query parser, and the model reads the raw suffix instead.
- SourceEvent.DescriptorIsAuthorized: the route names the plugin `JavBusDiscover` while the class is `JavDiscover`; whether the host routes that path to `javbus_discover` depends on host code that is not part of this model.

=== FILE: basics.dfy ===
/** Optional values and call outcomes shared by the rest of the model. */
module Basics {

  /** Python's optional value: `None` or a present value. */
  datatype Option<+T> = None | Some(value: T)

  /** The outcome of a call that may raise: a value or the error it raised. */
  datatype Result<+T, +E> = Ok(value: T) | Err(error: E)
}

=== FILE: discovery.dfy ===
/**
 * The discovery endpoint `javbus_discover`: token check, upstream page
 * reconciliation, the upstream call with every raised error flattened to an
 * empty answer, record mapping, and the caller's page window.
 */
module Discovery {

  import opened Basics
  import opened PyText
  import opened Paging
  import opened Upstream
  import opened Mapper
  import ResultCache

  /** The caller's parameters: access token, filters, 1-based page and page size. */
  datatype DiscoverRequest = DiscoverRequest(apikey: string, filters: Filters, page: int, count: int)

  /** The endpoint's answer, with the upstream queries the call issued. */
  datatype Answer = Answer(items: seq<MediaInfo>, asked: seq<Query>)

  /** The upstream query a request leads to, or `None` when its token is refused. */
  function Plan(apiToken: string, req: DiscoverRequest): (q: Option<Query>)
    ensures q.None? <==> req.apikey != apiToken
    ensures q.Some? ==> q.value.filters == req.filters
    ensures q.Some? && req.page >= 1 && req.count >= 1 ==> 0 <= q.value.page <= UpstreamPageSize
    ensures q.Some? && req.page * req.count <= UpstreamPageSize ==> q.value.page == req.page - 1
  {
    if req.apikey != apiToken then None
    else
    var q := Query(req.filters, ReqPage(req.page, req.count));
    if req.page >= 1 && req.count >= 1 then ReqPageIsMin(req.page, req.count); Some(q)
    else Some(q)
  }

  /**
   * Everything after the upstream call: a raised error, an absent list or an
   * empty list give `[]`; otherwise the mapped records cut to the window.
   */
  function Finish(req: DiscoverRequest, o: Result<Movies, Failure>): (items: seq<MediaInfo>)
    ensures o.Err? ==> items == []
    ensures o.Ok? && (o.value.None? || o.value.value == []) ==> items == []
    ensures req.count >= 0 ==> |items| <= req.count
    ensures items != [] ==> o.Ok? && o.value.Some?
  {
    match o
    case Err(_) => []
    case Ok(None) => []
    case Ok(Some(ms)) =>
      if ms == [] then []
      else
        var results := MapMovies(ms);
        var w := Window(results, req.page, req.count);
        if req.count < 0 then w else WindowLength(results, req.page, req.count); w
  }

  /**
   * A successful upstream list yields the caller's page of it: for page >= 1
   * the items are the mapped records from index (page-1)*count on, in order,
   * as many as the list still has up to count.
   */
  lemma FinishIsCallerPage(req: DiscoverRequest, ms: seq<Record>)
    requires req.page >= 1 && req.count >= 0
    ensures var items, s, e := Finish(req, Ok(Some(ms))), (req.page - 1) * req.count, req.page * req.count;
      && |items| == Min(e, |ms|) - Min(s, |ms|)
      && forall k :: 0 <= k < |items| ==> items[k] == MovieToMedia(ms[s + k])
  {
    FinishOfRecords(req, ms);
    MappedWindow(ms, req.page, req.count);
  }

  /** On a successful call, the answer is the window of the mapped records. */
  lemma FinishOfRecords(req: DiscoverRequest, ms: seq<Record>)
    ensures Finish(req, Ok(Some(ms))) == Window(MapMovies(ms), req.page, req.count)
  {
    if ms == [] {
      assert Window(MapMovies(ms), req.page, req.count) == [];
    }
  }

  lemma MappedWindow(ms: seq<Record>, page: int, count: int)
    requires page >= 1 && count >= 0
    ensures var w, s, e := Window(MapMovies(ms), page, count), (page - 1) * count, page * count;
      && |w| == Min(e, |ms|) - Min(s, |ms|)
      && forall k :: 0 <= k < |w| ==> w[k] == MovieToMedia(ms[s + k])
  {
    var results := MapMovies(ms);
    var w, s := Window(results, page, count), (page - 1) * count;
    WindowElements(results, page, count);
    forall k | 0 <= k < |w|
      ensures w[k] == MovieToMedia(ms[s + k])
    {
      assert w[k] == results[s + k];
    }
  }

  /**
   * The endpoint with a direct client call. A refused token answers `[]`
   * without asking upstream; otherwise exactly one query goes out.
   */
  function Discover(apiToken: string, req: DiscoverRequest, fetch: Query -> Response): (d: Answer)
    ensures req.apikey != apiToken ==> d.items == [] && d.asked == []
    ensures req.apikey == apiToken ==> d.asked == [Query(req.filters, ReqPage(req.page, req.count))]
    ensures req.apikey == apiToken ==> d.items == Finish(req, Request(fetch(d.asked[0])))
    ensures req.count >= 0 ==> |d.items| <= req.count
    ensures d.items != [] ==> req.apikey == apiToken && Request(fetch(d.asked[0])).Ok?
  {
    match Plan(apiToken, req)
    case None => Answer([], [])
    case Some(q) => Answer(Finish(req, Request(fetch(q))), [q])
  }

  /**
   * The endpoint as deployed, through the memo layers. A refused token
   * touches neither the caches nor the network.
   */
  function DiscoverCached(apiToken: string, req: DiscoverRequest, fetch: Query -> Response, cs: ResultCache.Caches)
    : (r: (Answer, ResultCache.Caches))
    ensures req.apikey != apiToken ==> r.0 == Answer([], []) && r.1 == cs
    ensures |r.0.asked| <= 1
    ensures forall x :: x in r.0.asked ==> x == Query(req.filters, ReqPage(req.page, req.count))
    ensures req.count >= 0 ==> |r.0.items| <= req.count
  {
    match Plan(apiToken, req)
    case None => (Answer([], []), cs)
    case Some(q) =>
      var s := ResultCache.CachedRequest(cs, fetch, q);
      (Answer(Finish(req, s.outcome), s.network), s.caches)
  }

  /**
   * Caching changes no answer: with coherent caches the cached endpoint
   * returns what the direct one does, and the caches stay coherent.
   */
  lemma CachedAgreesWithDirect(apiToken: string, req: DiscoverRequest, fetch: Query -> Response, cs: ResultCache.Caches)
    requires ResultCache.WellFormed(cs) && ResultCache.Coherent(cs, fetch)
    ensures var (d, cs') := DiscoverCached(apiToken, req, fetch, cs);
      && d.items == Discover(apiToken, req, fetch).items
      && ResultCache.WellFormed(cs') && ResultCache.Coherent(cs', fetch)
  {
    var p := Plan(apiToken, req);
    if p.Some? {
      ResultCache.CachedRequestTransparent(cs, fetch, p.value);
    }
  }

  /**
   * Repeating a request whose upstream call returned records gives the same
   * ordered answer and stays off the network.
   */
  lemma RepeatedRequestIsIdempotent(apiToken: string, req: DiscoverRequest, fetch: Query -> Response, cs: ResultCache.Caches)
    requires ResultCache.WellFormed(cs)
    requires req.apikey == apiToken
    requires ResultCache.CachedRequest(cs, fetch, Query(req.filters, ReqPage(req.page, req.count))).outcome.Ok?
    ensures var (d1, cs1) := DiscoverCached(apiToken, req, fetch, cs);
      var (d2, cs2) := DiscoverCached(apiToken, req, fetch, cs1);
      d2.items == d1.items && d2.asked == []
  {
    ResultCache.RepeatIsServedFromMemory(cs, fetch, Query(req.filters, ReqPage(req.page, req.count)));
  }

  /**
   * The worked example: 45 upstream records, pages of 30. Page 2 asks for
   * upstream page 1 and returns the records at indices 30 to 44; page 3
   * returns nothing.
   */
  lemma PagingExample(apiToken: string, filters: Filters, ms: seq<Record>)
    requires |ms| == 45
    ensures var d := Discover(apiToken, DiscoverRequest(apiToken, filters, 2, 30), _ => HttpResponse(true, "", Decoded(Some(ms))));
      && d.asked == [Query(filters, 1)]
      && d.items == MapMovies(ms)[30..45]
    ensures Discover(apiToken, DiscoverRequest(apiToken, filters, 3, 30), _ => HttpResponse(true, "", Decoded(Some(ms)))).items == []
  {
    WindowExample(MapMovies(ms));
  }

  /**
   * Caller page p is cut at offset (p-1)*count from upstream page p-1, so
   * consecutive caller pages come from different upstream lists: with pages
   * of 30, page 1 is items 0..29 of upstream page 0 and page 2 is items
   * 30..59 of upstream page 1. With OnlyFirstCallerPageReadsPageZero, items
   * 30..59 of upstream page 0 are never served.
   */
  lemma ConsecutivePagesSkipRecords(apiToken: string, filters: Filters, a: seq<Record>, b: seq<Record>)
    requires |a| == 500 && |b| == 500
    ensures var fetch := (q: Query) => HttpResponse(true, "", Decoded(Some(if q.page == 0 then a else b)));
      && Discover(apiToken, DiscoverRequest(apiToken, filters, 1, 30), fetch).items == MapMovies(a)[0..30]
      && Discover(apiToken, DiscoverRequest(apiToken, filters, 2, 30), fetch).items == MapMovies(b)[30..60]
  {
    WindowClipped(MapMovies(a), 1, 30);
    WindowClipped(MapMovies(b), 2, 30);
  }

  /** With pages of 30, caller page 1 is the only one that sends a query for upstream page 0. */
  lemma OnlyFirstCallerPageReadsPageZero(apiToken: string, filters: Filters)
    ensures forall p :: Plan(apiToken, DiscoverRequest(apiToken, filters, p, 30)) == Some(Query(filters, 0)) ==> p == 1
  {
    forall p | Plan(apiToken, DiscoverRequest(apiToken, filters, p, 30)) == Some(Query(filters, 0))
      ensures p == 1
    {
      OnlyFirstPageAsksPageZero(p);
    }
  }
}

=== FILE: lru.dfy ===
/**
 * A bounded least-recently-used memo, the eviction policy of the expiring
 * caches that wrap the upstream call. Time-based expiry is not part of this
 * model; capacity-based eviction and recency updates are.
 */
module Lru {

  import opened Basics

  /**
   * A cache holding at most `capacity` entries. `order` lists the stored keys
   * from least to most recently used.
   */
  datatype Cache<K(==,!new), V> = Cache(capacity: nat, store: map<K, V>, order: seq<K>)

  predicate Distinct<K(==)>(s: seq<K>) {
    forall i, j :: 0 <= i < j < |s| ==> s[i] != s[j]
  }

  /** The recency list and the store describe the same keys, without repeats, within capacity. */
  predicate Valid<K(==,!new), V>(c: Cache<K, V>) {
    && |c.order| <= c.capacity
    && Distinct(c.order)
    && (forall k :: k in c.store ==> k in c.order)
    && (forall k :: k in c.order ==> k in c.store)
  }

  function Empty<K(==,!new), V>(capacity: nat): (c: Cache<K, V>)
    ensures Valid(c)
    ensures forall k :: Get(c, k) == None
  {
    Cache(capacity, map[], [])
  }

  /** A lookup: the stored value, if any. */
  function Get<K(==,!new), V>(c: Cache<K, V>, k: K): Option<V> {
    if k in c.store then Some(c.store[k]) else None
  }

  /** `s` without `k`, the rest in the same order. */
  function Remove<K(==,!new)>(s: seq<K>, k: K): (r: seq<K>)
    ensures forall x :: x in r <==> x in s && x != k
    ensures Distinct(s) ==> Distinct(r)
    ensures Distinct(s) && k in s ==> |r| == |s| - 1
    ensures Distinct(s) && k in s ==> exists i :: 0 <= i < |s| && s[i] == k && r == s[..i] + s[i + 1..]
    ensures k !in s ==> r == s
  {
    if |s| == 0 then []
    else
      var rest := Remove(s[1..], k);
      ConsMembers(s);
      if s[0] == k then
        (if Distinct(s) then DistinctTail(s); assert s[..0] + s[1..] == s[1..]; rest else rest)
      else
        (if Distinct(s) then
           DistinctTail(s);
           DistinctCons(s[0], rest);
           (if k in s then
              var j :| 0 <= j < |s[1..]| && s[1..][j] == k && rest == s[1..][..j] + s[1..][j + 1..];
              ConsCut(s, j, rest);
              [s[0]] + rest
            else [s[0]] + rest)
         else [s[0]] + rest)
  }

  lemma ConsMembers<K>(s: seq<K>)
    requires |s| > 0
    ensures forall x :: x in s <==> x == s[0] || x in s[1..]
  {
    assert s == [s[0]] + s[1..];
  }

  lemma DistinctTail<K>(s: seq<K>)
    requires |s| > 0 && Distinct(s)
    ensures Distinct(s[1..]) && s[0] !in s[1..]
  {
  }

  lemma DistinctCons<K>(x: K, t: seq<K>)
    requires Distinct(t) && x !in t
    ensures Distinct([x] + t)
  {
  }

  lemma ConsCut<K>(s: seq<K>, j: nat, rest: seq<K>)
    requires j + 1 < |s| && rest == s[1..][..j] + s[1..][j + 1..]
    ensures s[j + 1] == s[1..][j]
    ensures [s[0]] + rest == s[..j + 1] + s[j + 2..]
  {
    assert s[1..][..j] == s[1..j + 1];
    assert s[1..][j + 1..] == s[j + 2..];
    assert [s[0]] + s[1..j + 1] == s[..j + 1];
  }

  /** A cache hit: the key becomes the most recently used, nothing else changes. */
  function Touch<K(==,!new), V>(c: Cache<K, V>, k: K): (c': Cache<K, V>)
    requires k in c.store
    ensures Valid(c) ==> Valid(c')
    ensures forall x :: Get(c', x) == Get(c, x)
    ensures |c'.order| >= 1 && c'.order[|c'.order| - 1] == k
    ensures c'.order[..|c'.order| - 1] == Remove(c.order, k)
  {
    var rest := Remove(c.order, k);
    assert Valid(c) ==> Distinct(rest + [k]);
    Cache(c.capacity, c.store, rest + [k])
  }

  /**
   * Storing a value. A cache of capacity 0 cannot hold anything and stays as
   * it is (the value counts as too large and the memo skips storing it).
   * Otherwise least recently used entries are evicted until the new one fits,
   * and the new key becomes the most recently used.
   */
  function Put<K(==,!new), V>(c: Cache<K, V>, k: K, v: V): Cache<K, V> {
    if c.capacity == 0 then c
    else
      var rest := Remove(c.order, k);
      var drop := if |rest| >= c.capacity then |rest| - c.capacity + 1 else 0;
      var victims := rest[..drop];
      var store := map x | x in c.store && x !in victims :: c.store[x];
      Cache(c.capacity, store[k := v], rest[drop..] + [k])
  }

  /** Storing keeps the cache well formed. */
  lemma PutValid<K(!new), V>(c: Cache<K, V>, k: K, v: V)
    requires Valid(c)
    ensures Valid(Put(c, k, v))
  {
    if c.capacity > 0 {
      var rest := Remove(c.order, k);
      var drop := if |rest| >= c.capacity then |rest| - c.capacity + 1 else 0;
      var kept := rest[drop..];
      SplitDistinct(rest, drop);
      assert |kept + [k]| <= c.capacity;
      DistinctSnoc(kept, k);
      var victims := rest[..drop];
      var c' := Put(c, k, v);
      assert c'.order == kept + [k];
      assert forall x :: x in c'.store <==> x == k || (x in c.store && x !in victims);
      forall x | x in c'.store
        ensures x in c'.order
      {
        if x != k {
          assert x in c.order && x in rest;
          assert x in kept;
        }
      }
      forall x | x in c'.order
        ensures x in c'.store
      {
        if x != k {
          assert x in kept;
          assert x in rest && x !in victims;
          assert x in c.store;
        }
      }
    }
  }

  /** Cutting a list without repeats: the tail keeps exactly the keys not in the head. */
  lemma SplitDistinct<K>(s: seq<K>, d: nat)
    requires Distinct(s) && d <= |s|
    ensures Distinct(s[d..])
    ensures forall x :: x in s[d..] <==> x in s && x !in s[..d]
  {
    assert s == s[..d] + s[d..];
    forall x | x in s[d..]
      ensures x !in s[..d]
    {
      var j :| 0 <= j < |s[d..]| && s[d..][j] == x;
      assert s[d + j] == x;
    }
  }

  lemma DistinctSnoc<K>(t: seq<K>, x: K)
    requires Distinct(t) && x !in t
    ensures Distinct(t + [x])
  {
  }

  /** A stored value is read back. */
  lemma PutGet<K(!new), V>(c: Cache<K, V>, k: K, v: V)
    requires c.capacity >= 1
    ensures Get(Put(c, k, v), k) == Some(v)
  {
  }

  /**
   * Storing one key leaves every other key's value in place unless that key
   * was evicted; nothing is evicted when the key was already stored or the
   * cache had room.
   */
  lemma PutKeepsOthers<K(!new), V>(c: Cache<K, V>, k: K, v: V, x: K)
    requires Valid(c) && x != k
    ensures Get(Put(c, k, v), x) == Get(c, x) || Get(Put(c, k, v), x) == None
    ensures k in c.store || |c.order| < c.capacity ==> Get(Put(c, k, v), x) == Get(c, x)
  {
    if c.capacity > 0 && (k in c.store || |c.order| < c.capacity) {
      var rest := Remove(c.order, k);
      assert |rest| < c.capacity;
    }
  }

  /** When a full cache stores a new key, the least recently used key is the one evicted. */
  lemma PutEvictsLeastRecent<K(!new), V>(c: Cache<K, V>, k: K, v: V)
    requires Valid(c) && k !in c.store
    requires |c.order| == c.capacity >= 1
    ensures Get(Put(c, k, v), c.order[0]) == None
    ensures forall i :: 1 <= i < |c.order| ==> Get(Put(c, k, v), c.order[i]) == Get(c, c.order[i])
  {
    var rest := Remove(c.order, k);
    assert rest == c.order;
    assert rest[..1] == [c.order[0]];
    forall i | 1 <= i < |c.order|
      ensures Get(Put(c, k, v), c.order[i]) == Get(c, c.order[i])
    {
      assert c.order[i] !in rest[..1];
    }
  }
}

=== FILE: mapper.dfy ===
/**
 * The record mapper: one upstream movie record to the host's media-info shape.
 * Every field is read with `dict.get`, so a missing field never fails; it
 * shows up as `None` or as the text "None".
 */
module Mapper {

  import opened Basics
  import opened PyText

  /** The media kind this source labels every item with ("movie"). */
  const MovieKind: string := "电影"

  /** The host's media-info record as this plugin fills it. */
  datatype MediaInfo = MediaInfo(
    kind: string,
    title: PyValue,
    titleYear: string,
    mediaId: string,
    posterPath: PyValue)

  /** The display string `f"{name} ({year})"`. */
  function TitleYear(name: PyValue, year: PyValue): string {
    Str(name) + " (" + Str(year) + ")"
  }

  /**
   * The mapper. The poster is the record's `img` field; the source line
   * carries a stray quote after that expression, so its intended reading is
   * modelled.
   */
  function MovieToMedia(r: Record): (m: MediaInfo)
    ensures m.kind == MovieKind
    ensures m.title == Get(r, "title") && m.posterPath == Get(r, "img")
    ensures "id" !in r ==> m.mediaId == "None"
  {
    MediaInfo(MovieKind, Get(r, "title"), TitleYear(Get(r, "name"), Get(r, "year")), Str(Get(r, "id")), Get(r, "img"))
  }

  /**
   * The media id is the record's id as text: a string id verbatim, an integer
   * id as decimal digits that read back as that integer.
   */
  lemma MediaIdRecoversId(r: Record)
    ensures Get(r, "id").PyStr? ==> MovieToMedia(r).mediaId == Get(r, "id").s
    ensures Get(r, "id").PyInt? ==> ParseInt(MovieToMedia(r).mediaId) == Some(Get(r, "id").i)
  {
    if Get(r, "id").PyInt? {
      ParseIntToString(Get(r, "id").i);
    }
  }

  /** Index of the last occurrence of `c` in `s`. */
  function LastIndexOf(s: string, c: char): (r: Option<nat>)
    ensures r.Some? ==> r.value < |s| && s[r.value] == c
    ensures r.Some? ==> c !in s[r.value + 1..]
    ensures r.None? <==> c !in s
  {
    if |s| == 0 then None
    else if s[|s| - 1] == c then Some(|s| - 1)
    else
      var r := LastIndexOf(s[..|s| - 1], c);
      assert s == s[..|s| - 1] + [s[|s| - 1]];
      if r.Some? then assert s[r.value + 1..] == s[..|s| - 1][r.value + 1..] + [s[|s| - 1]]; r
      else r
  }

  /**
   * Reads a display string back into its name and year parts: the year is
   * the text between the last " (" and the closing ")".
   */
  function SplitTitleYear(t: string): Option<(string, string)> {
    if |t| == 0 || t[|t| - 1] != ')' then None
    else match LastIndexOf(t, '(')
      case None => None
      case Some(i) =>
        if i == 0 || t[i - 1] != ' ' then None else Some((t[..i - 1], t[i + 1..|t| - 1]))
  }

  /** A year text without "(" is recovered exactly, together with the name. */
  lemma SplitTitleYearInverse(name: string, year: string)
    requires '(' !in year
    ensures SplitTitleYear(name + " (" + year + ")") == Some((name, year))
  {
    var t := name + " (" + year + ")";
    var i := |name| + 1;
    assert t[i] == '(';
    assert t[i + 1..] == year + ")";
    assert t[..i - 1] == name;
    assert t[i + 1..|t| - 1] == year;
  }

  /**
   * The display string gives back `str(name)` and `str(year)` whenever the
   * year's text has no "(" (any int, a missing year, a bool, most strings);
   * an integer year's part reads back as that integer.
   */
  lemma TitleYearRecoversYear(r: Record)
    requires '(' !in Str(Get(r, "year"))
    ensures SplitTitleYear(MovieToMedia(r).titleYear) == Some((Str(Get(r, "name")), Str(Get(r, "year"))))
    ensures Get(r, "year").PyInt? ==> ParseInt(Str(Get(r, "year"))) == Some(Get(r, "year").i)
  {
    SplitTitleYearInverse(Str(Get(r, "name")), Str(Get(r, "year")));
    if Get(r, "year").PyInt? {
      ParseIntToString(Get(r, "year").i);
    }
  }

  /** The worked example: a complete record maps field by field. */
  lemma MovieToMediaExample()
    ensures MovieToMedia(map["id" := PyStr("X1"), "title" := PyStr("T"), "name" := PyStr("N"),
                             "year" := PyInt(2020), "img" := PyStr("http://p")])
      == MediaInfo(MovieKind, PyStr("T"), "N (2020)", "X1", PyStr("http://p"))
  {
    assert NatToString(2020) == "2020" by {
      assert NatToString(2) == "2";
      assert NatToString(20) == "20";
      assert NatToString(202) == "202";
    }
  }

  /** Mapping a list keeps its length and order. */
  function MapMovies(ms: seq<Record>): (out: seq<MediaInfo>)
    ensures |out| == |ms|
    ensures forall k :: 0 <= k < |ms| ==> out[k] == MovieToMedia(ms[k])
  {
    seq(|ms|, k requires 0 <= k < |ms| => MovieToMedia(ms[k]))
  }
}

=== FILE: paging.dfy ===
/**
 * Page reconciliation and re-slicing of the discovery endpoint: which upstream
 * page to ask for, and which window of the mapped records to hand back.
 * Python's `//` and slice semantics are written out, since Dafny's `/` is
 * Euclidean and Dafny's sequence slices take no negative indices.
 */
module Paging {

  /** Number of records the upstream serves per page. */
  const UpstreamPageSize: int := 500

  /** Python's `a // b`: the quotient rounded toward negative infinity. */
  function FloorDiv(a: int, b: int): (q: int)
    requires b != 0
    ensures b > 0 ==> b * q <= a < b * q + b
    ensures b < 0 ==> b * q + b < a <= b * q
  {
    if b > 0 then a / b else (-a) / (-b)
  }

  /**
   * The upstream page asked for by caller page `page` of size `count`:
   * `page - 1` while the caller's window stays within one upstream page,
   * otherwise the fixed page `500 // count`. The division branch is only
   * taken when `page * count > 500`, so `count` is never zero there.
   */
  function ReqPage(page: int, count: int): int {
    if page * count > UpstreamPageSize then FloorDiv(UpstreamPageSize, count) else page - 1
  }

  /** Within the first 500 records, caller page p asks for upstream page p - 1. */
  lemma ReqPageWithinWindow(page: int, count: int)
    requires page * count <= UpstreamPageSize
    ensures ReqPage(page, count) == page - 1
  {
  }

  /**
   * Past the first 500 records the upstream page is the number of whole
   * caller pages that fit in 500 records, whatever caller page was asked.
   */
  lemma ReqPageBeyondWindow(page: int, page': int, count: int)
    requires count >= 1
    requires page * count > UpstreamPageSize && page' * count > UpstreamPageSize
    ensures ReqPage(page, count) == ReqPage(page', count)
    ensures count * ReqPage(page, count) <= UpstreamPageSize < count * (ReqPage(page, count) + 1)
  {
  }

  /**
   * For valid inputs the formula is the smaller of the caller's own 0-based
   * page and the last upstream page `500 // count`; hence it lies in [0, 500].
   */
  lemma ReqPageIsMin(page: int, count: int)
    requires page >= 1 && count >= 1
    ensures ReqPage(page, count) == if page - 1 <= UpstreamPageSize / count then page - 1 else UpstreamPageSize / count
    ensures 0 <= ReqPage(page, count) <= UpstreamPageSize
  {
    var q := UpstreamPageSize / count;
    assert count * q <= UpstreamPageSize < count * q + count;
    if page * count > UpstreamPageSize {
      assert q == FloorDiv(UpstreamPageSize, count);
      if page - 1 < q {
        MulMono(page, q, count);
        assert false;
      }
    } else {
      if page - 1 > q {
        MulMono(q + 1, page, count);
        assert false;
      }
      MulMono(1, count, page);
    }
  }

  lemma MulMono(a: int, b: int, c: int)
    requires a <= b && c >= 0
    ensures a * c <= b * c
  {
  }

  /**
   * With pages of 30, only caller page 1 asks for upstream page 0: every
   * later page asks for page p - 1 >= 1 or for the fixed page 500 // 30 == 16.
   */
  lemma OnlyFirstPageAsksPageZero(p: int)
    requires ReqPage(p, 30) == 0
    ensures p == 1
  {
  }

  /** Python's normalisation of one slice bound against a length `n`. */
  function SliceBound(i: int, n: nat): (b: nat)
    ensures b <= n
  {
    if i < 0 then (if i + n >= 0 then i + n else 0) else if i <= n then i else n
  }

  /** Python's `xs[start:stop]` (step 1), negative indices included. */
  function PySlice<T>(xs: seq<T>, start: int, stop: int): (r: seq<T>)
    ensures |r| <= |xs|
    ensures SliceBound(start, |xs|) + |r| <= |xs|
    ensures |r| == if SliceBound(start, |xs|) < SliceBound(stop, |xs|)
      then SliceBound(stop, |xs|) - SliceBound(start, |xs|) else 0
    ensures forall k :: 0 <= k < |r| ==> r[k] == xs[SliceBound(start, |xs|) + k]
  {
    var lo := SliceBound(start, |xs|);
    var hi := SliceBound(stop, |xs|);
    if lo < hi then xs[lo..hi] else []
  }

  /** The caller's page: `results[(page - 1) * count : page * count]`. */
  function Window<T>(xs: seq<T>, page: int, count: int): seq<T> {
    PySlice(xs, (page - 1) * count, page * count)
  }

  function Min(a: int, b: int): int {
    if a <= b then a else b
  }

  /**
   * For page >= 1 the window is the plain half-open range
   * [(page-1)*count, page*count) clipped to the list, and is empty once its
   * start is past the end.
   */
  lemma WindowClipped<T>(xs: seq<T>, page: int, count: int)
    requires page >= 1 && count >= 0
    ensures var s, e := (page - 1) * count, page * count;
      Window(xs, page, count) == xs[Min(s, |xs|)..Min(e, |xs|)]
    ensures (page - 1) * count >= |xs| ==> Window(xs, page, count) == []
  {
    var s, e := (page - 1) * count, page * count;
    MulMono(0, page - 1, count);
    assert s <= e;
  }

  /** Element by element: the window's k-th item is the list's item at (page-1)*count + k. */
  lemma WindowElements<T>(xs: seq<T>, page: int, count: int)
    requires page >= 1 && count >= 0
    ensures var s, e := (page - 1) * count, page * count;
      && |Window(xs, page, count)| == Min(e, |xs|) - Min(s, |xs|)
      && forall k :: 0 <= k < |Window(xs, page, count)| ==> Window(xs, page, count)[k] == xs[s + k]
  {
    var s, e := (page - 1) * count, page * count;
    var w, lo, hi := Window(xs, page, count), Min(s, |xs|), Min(e, |xs|);
    WindowClipped(xs, page, count);
    assert w == xs[lo..hi];
    assert |w| == hi - lo;
    forall k | 0 <= k < |w|
      ensures w[k] == xs[s + k]
    {
      assert lo == s;
      assert w[k] == xs[lo + k];
    }
  }

  /**
   * Whatever the page, even zero or negative, a non-negative page size
   * bounds the length of the window.
   */
  lemma WindowLength<T>(xs: seq<T>, page: int, count: int)
    requires count >= 0
    ensures |Window(xs, page, count)| <= count
  {
    var s, e := (page - 1) * count, page * count;
    assert e == s + count;
  }

  /** A negative page size is not a bound: page 1 of size -5 keeps all but five records. */
  lemma NegativeCountOverflows<T>(xs: seq<T>)
    requires |xs| == 45
    ensures Window(xs, 1, -5) == xs[..40]
    ensures |Window(xs, 1, -5)| == 40
  {
  }

  /**
   * Windows 1..p of one list laid end to end are its first p*count items
   * (or the whole list once it runs out). The endpoint cuts each caller page
   * from a different upstream list, so its answers do not tile this way.
   */
  function Pages<T>(xs: seq<T>, p: nat, count: int): seq<T> {
    if p == 0 then [] else Pages(xs, p - 1, count) + Window(xs, p, count)
  }

  lemma {:induction false} PagesTile<T>(xs: seq<T>, p: nat, count: int)
    requires count >= 0
    ensures Pages(xs, p, count) == xs[..Min(p * count, |xs|)]
  {
    if p > 0 {
      var s, e := (p - 1) * count, p * count;
      assert e == s + count;
      PagesTile(xs, p - 1, count);
      assert Pages(xs, p - 1, count) == xs[..Min(s, |xs|)];
      WindowClipped(xs, p, count);
      assert Window(xs, p, count) == xs[Min(s, |xs|)..Min(e, |xs|)];
      PrefixThenSlice(xs, Min(s, |xs|), Min(e, |xs|));
    }
  }

  /** A prefix followed by the adjacent slice is the longer prefix. */
  lemma PrefixThenSlice<T>(xs: seq<T>, a: nat, b: nat)
    requires a <= b <= |xs|
    ensures xs[..a] + xs[a..b] == xs[..b]
  {
  }

  /** The worked example: 45 records, pages of 30. */
  lemma WindowExample<T>(xs: seq<T>)
    requires |xs| == 45
    ensures Window(xs, 2, 30) == xs[30..45]
    ensures |Window(xs, 2, 30)| == 15
    ensures Window(xs, 3, 30) == []
  {
  }
}

=== FILE: pytext.dfy ===
/**
 * The slice of Python's value model the plugin touches: the field values a
 * decoded JSON record can carry, `dict.get` with its `None` default, and the
 * text `str()` (and an f-string `{...}` hole) renders for each of them.
 */
module PyText {

  import opened Basics

  /** A field value of a decoded upstream record. */
  datatype PyValue = PyNone | PyBool(b: bool) | PyInt(i: int) | PyStr(s: string)

  /** An upstream record: a JSON object, keys to values. */
  type Record = map<string, PyValue>

  /** `record.get(key)`: a missing key reads as `None`. */
  function Get(r: Record, key: string): PyValue {
    if key in r then r[key] else PyNone
  }

  predicate IsDigit(c: char) {
    '0' <= c <= '9'
  }

  predicate AllDigits(s: string) {
    forall k :: 0 <= k < |s| ==> IsDigit(s[k])
  }

  function DigitChar(d: nat): (c: char)
    requires d < 10
    ensures IsDigit(c)
    ensures c as int - '0' as int == d
  {
    (d + '0' as int) as char
  }

  /** Decimal digits of `n`, most significant first, as `str(n)` prints them. */
  function NatToString(n: nat): (s: string)
    ensures |s| >= 1
    ensures AllDigits(s)
    ensures n > 0 ==> s[0] != '0'
    decreases n
  {
    if n < 10 then [DigitChar(n)] else NatToString(n / 10) + [DigitChar(n % 10)]
  }

  /** `str(i)` for a Python int: a leading minus sign for negatives. */
  function IntToString(i: int): (s: string)
    ensures |s| >= 1
    ensures '(' !in s
    ensures i >= 0 <==> IsDigit(s[0])
  {
    if i < 0 then "-" + NatToString(-i) else NatToString(i)
  }

  /** `str(v)`: the text Python renders for a field value. */
  function Str(v: PyValue): string {
    match v
    case PyNone => "None"
    case PyBool(b) => if b then "True" else "False"
    case PyInt(i) => IntToString(i)
    case PyStr(t) => t
  }

  /** Value of a string of decimal digits (the inverse direction of NatToString). */
  function ParseNat(s: string): nat
    requires AllDigits(s)
  {
    if |s| == 0 then 0
    else 10 * ParseNat(s[..|s| - 1]) + (s[|s| - 1] as int - '0' as int)
  }

  /** `int(s)` restricted to the canonical forms `str` produces; `None` otherwise. */
  function ParseInt(s: string): Option<int> {
    if |s| == 0 then None
    else if s[0] == '-' then
      if |s| > 1 && AllDigits(s[1..]) then Some(0 - ParseNat(s[1..]) as int) else None
    else if AllDigits(s) then Some(ParseNat(s))
    else None
  }

  /** Reading back the decimal text of a natural gives the natural. */
  lemma {:induction false} ParseNatToString(n: nat)
    ensures ParseNat(NatToString(n)) == n
    decreases n
  {
    var s := NatToString(n);
    if n < 10 {
      assert s[..|s| - 1] == [];
    } else {
      var h := NatToString(n / 10);
      assert s == h + [DigitChar(n % 10)];
      assert s[..|s| - 1] == h;
      ParseNatToString(n / 10);
    }
  }

  /** `int(str(i)) == i`: the rendering of an int loses nothing. */
  lemma ParseIntToString(i: int)
    ensures ParseInt(IntToString(i)) == Some(i)
  {
    var s := IntToString(i);
    if i < 0 {
      assert s[1..] == NatToString(-i);
      ParseNatToString(-i);
    } else {
      ParseNatToString(i);
    }
  }

  /** Two ints render the same text only if they are equal. */
  lemma IntToStringInjective(i: int, j: int)
    requires IntToString(i) == IntToString(j)
    ensures i == j
  {
    ParseIntToString(i);
    ParseIntToString(j);
  }
}

=== FILE: result_cache.dfy ===
/**
 * The two stacked memo layers around the upstream call. The outer layer
 * (capacity 1, thirty-day expiry) is consulted first; on a miss the inner
 * layer (capacity 32, thirty-minute expiry) is consulted; on a miss there the
 * client is called. A raised error passes through both layers and is stored
 * in neither. Expiry by time is not part of this model.
 */
module ResultCache {

  import opened Basics
  import opened Upstream
  import Lru

  const OuterCapacity: nat := 1
  const InnerCapacity: nat := 32

  type Memo = Lru.Cache<Query, Movies>

  datatype Caches = Caches(outer: Memo, inner: Memo)

  /** What one cached call yields: the outcome, the caches after it, the queries that went to the network. */
  datatype Served = Served(outcome: Result<Movies, Failure>, caches: Caches, network: seq<Query>)

  /** The caches at process start. */
  function Initial(): (cs: Caches)
    ensures WellFormed(cs)
    ensures forall x :: Lru.Get(cs.outer, x) == None && Lru.Get(cs.inner, x) == None
  {
    Caches(Lru.Empty(OuterCapacity), Lru.Empty(InnerCapacity))
  }

  predicate WellFormed(cs: Caches) {
    && cs.outer.capacity == OuterCapacity && Lru.Valid(cs.outer)
    && cs.inner.capacity == InnerCapacity && Lru.Valid(cs.inner)
  }

  /** A memo layer remembers a returned value; a raised error is not remembered. */
  function Remember(m: Memo, q: Query, o: Result<Movies, Failure>): Memo {
    if o.Ok? then Lru.Put(m, q, o.value) else m
  }

  /** The inner layer: a hit, or one call to the client. */
  function InnerCall(inner: Memo, fetch: Query -> Response, q: Query): (Result<Movies, Failure>, Memo, seq<Query>) {
    if q in inner.store then (Ok(inner.store[q]), Lru.Touch(inner, q), [])
    else
      var o := Request(fetch(q));
      (o, Remember(inner, q, o), [q])
  }

  /** The cached client call: outer layer first, then the inner one. */
  function CachedRequest(cs: Caches, fetch: Query -> Response, q: Query): (s: Served)
    ensures |s.network| <= 1 && (forall x :: x in s.network ==> x == q)
    ensures q in cs.outer.store ==> s.network == [] && s.outcome == Ok(cs.outer.store[q])
    ensures s.outcome.Err? ==> s.network == [q]
    ensures q !in cs.outer.store && q in cs.inner.store ==> s.network == [] && s.outcome == Ok(cs.inner.store[q])
    ensures q !in cs.outer.store && q !in cs.inner.store ==> s.network == [q] && s.outcome == Request(fetch(q))
  {
    if q in cs.outer.store then
      Served(Ok(cs.outer.store[q]), cs.(outer := Lru.Touch(cs.outer, q)), [])
    else
      var (o, inner, net) := InnerCall(cs.inner, fetch, q);
      Served(o, Caches(Remember(cs.outer, q, o), inner), net)
  }

  /** Every remembered value is what the client returns for its key. */
  ghost predicate Coherent(cs: Caches, fetch: Query -> Response) {
    && (forall x :: x in cs.outer.store ==> Request(fetch(x)) == Ok(cs.outer.store[x]))
    && (forall x :: x in cs.inner.store ==> Request(fetch(x)) == Ok(cs.inner.store[x]))
  }

  /** Storing what the client returned keeps a memo layer coherent. */
  lemma RememberCoherent(m: Memo, fetch: Query -> Response, q: Query)
    requires forall x :: x in m.store ==> Request(fetch(x)) == Ok(m.store[x])
    ensures var m' := Remember(m, q, Request(fetch(q)));
      forall x :: x in m'.store ==> Request(fetch(x)) == Ok(m'.store[x])
  {
  }

  /**
   * The caches are transparent: as long as they only hold what the client
   * returns, a cached call yields exactly what a direct call would, they stay
   * coherent, and well formed.
   */
  lemma CachedRequestTransparent(cs: Caches, fetch: Query -> Response, q: Query)
    requires WellFormed(cs) && Coherent(cs, fetch)
    ensures var s := CachedRequest(cs, fetch, q);
      && s.outcome == Request(fetch(q))
      && Coherent(s.caches, fetch)
      && WellFormed(s.caches)
  {
    var o := Request(fetch(q));
    if q !in cs.outer.store {
      RememberCoherent(cs.outer, fetch, q);
      if q !in cs.inner.store {
        RememberCoherent(cs.inner, fetch, q);
        if o.Ok? {
          Lru.PutValid(cs.inner, q, o.value);
        }
      }
      if o.Ok? {
        Lru.PutValid(cs.outer, q, o.value);
      }
    }
  }

  /**
   * From cold caches, two identical calls reach the network once between
   * them when the first one returned records.
   */
  lemma ColdRepeatCallsOnce(fetch: Query -> Response, q: Query)
    requires Request(fetch(q)).Ok?
    ensures var s1 := CachedRequest(Initial(), fetch, q);
      var s2 := CachedRequest(s1.caches, fetch, q);
      && s1.network + s2.network == [q]
      && s2.outcome == s1.outcome == Request(fetch(q))
  {
    var s1 := CachedRequest(Initial(), fetch, q);
    assert q !in Initial().outer.store && q !in Initial().inner.store;
    RepeatIsServedFromMemory(Initial(), fetch, q);
  }

  /**
   * A call that returned records leaves them in the outer layer, so the same
   * call straight after is served from memory: no network call, same outcome.
   */
  lemma RepeatIsServedFromMemory(cs: Caches, fetch: Query -> Response, q: Query)
    requires WellFormed(cs)
    requires CachedRequest(cs, fetch, q).outcome.Ok?
    ensures var s1 := CachedRequest(cs, fetch, q);
      var s2 := CachedRequest(s1.caches, fetch, q);
      && s2.network == []
      && s2.outcome == s1.outcome
  {
    var s1 := CachedRequest(cs, fetch, q);
    if q !in cs.outer.store {
      Lru.PutGet(cs.outer, q, s1.outcome.value);
    }
  }

  /** A raised error leaves both layers as they were, so the next call tries the network again. */
  lemma ErrorIsNotRemembered(cs: Caches, fetch: Query -> Response, q: Query)
    requires CachedRequest(cs, fetch, q).outcome.Err?
    ensures CachedRequest(cs, fetch, q).caches == cs
    ensures CachedRequest(CachedRequest(cs, fetch, q).caches, fetch, q).network == [q]
  {
  }
}

=== FILE: source_event.dfy ===
/**
 * The discover-source event handler: when the plugin is enabled and has an
 * API key configured, it appends one JavBus source descriptor to the event's
 * list of extra sources; otherwise the event is left alone.
 */
module SourceEvent {

  import opened Basics
  import opened Upstream
  import Discovery

  /** The descriptor the host uses to call the endpoint (the filter UI schema is not modelled). */
  datatype Source = Source(name: string, mediaidPrefix: string, apiPath: string, filterParams: Filters)

  /** The route, up to the token appended as the `apikey` query value. */
  const ApiPathPrefix: string := "plugin/JavBusDiscover/javbus_discover?apikey="

  /** The default filters the descriptor announces (note the "series" type). */
  const SourceFilters: Filters :=
    Filters("series", None, None, "usa", None, "eng", "score", "desc", None, None)

  function JavBusSource(apiToken: string): Source {
    Source("JavBus", "javbus", ApiPathPrefix + apiToken, SourceFilters)
  }

  /** Python truthiness of the configured key: `None` and "" are false. */
  predicate HasKey(apiKey: Option<string>) {
    apiKey.Some? && apiKey.value != ""
  }

  /** The list an absent or empty `extra_sources` stands for. */
  function Existing(extra: Option<seq<Source>>): seq<Source> {
    if extra.None? then [] else extra.value
  }

  /**
   * The handler. An absent or empty list is replaced by a one-element list,
   * a non-empty one is appended to; either way the result is the old entries
   * followed by the descriptor.
   */
  function OnDiscoverSource(enabled: bool, apiKey: Option<string>, apiToken: string, extra: Option<seq<Source>>)
    : (r: Option<seq<Source>>)
    ensures !enabled || !HasKey(apiKey) ==> r == extra
    ensures enabled && HasKey(apiKey) ==>
      && r.Some?
      && |r.value| == |Existing(extra)| + 1
      && r.value[..|Existing(extra)|] == Existing(extra)
      && r.value[|r.value| - 1] == JavBusSource(apiToken)
  {
    if !enabled || !HasKey(apiKey) then extra
    else if extra.None? || extra.value == [] then Some([JavBusSource(apiToken)])
    else Some(extra.value + [JavBusSource(apiToken)])
  }

  /** The `apikey` value carried by a route of this plugin. */
  function ApiKeyOf(apiPath: string): Option<string> {
    if |ApiPathPrefix| <= |apiPath| && apiPath[..|ApiPathPrefix|] == ApiPathPrefix
    then Some(apiPath[|ApiPathPrefix|..])
    else None
  }

  /**
   * The host calling the appended descriptor's route with its announced
   * filters passes the token check: the route carries the configured token.
   */
  lemma DescriptorIsAuthorized(apiToken: string, page: int, count: int)
    ensures ApiKeyOf(JavBusSource(apiToken).apiPath) == Some(apiToken)
    ensures var src := JavBusSource(apiToken);
      Discovery.Plan(apiToken, Discovery.DiscoverRequest(ApiKeyOf(src.apiPath).value, src.filterParams, page, count)).Some?
  {
    var p := JavBusSource(apiToken).apiPath;
    assert p[..|ApiPathPrefix|] == ApiPathPrefix;
    assert p[|ApiPathPrefix|..] == apiToken;
  }
}

=== FILE: upstream.dfy ===
/**
 * The upstream catalogue client: the arguments of one call and how it turns
 * an HTTP exchange into records or a raised error. The exchange itself
 * (network, status, JSON decoding) is an abstract `Response` supplied by the
 * caller. The content type `mtype` is part of a call's arguments, and so of
 * its cache key, but the client does not send it upstream: only the other
 * filters and the page become query parameters. `fetch` receives the whole
 * call, which covers that case since nothing here depends on what it reads.
 */
module Upstream {

  import opened Basics
  import opened PyText

  /** The filter and sort parameters the endpoint forwards unchanged. */
  datatype Filters = Filters(
    mtype: string,
    company: Option<int>,
    contentRating: Option<int>,
    country: string,
    genre: Option<int>,
    lang: string,
    sort: string,
    sortType: string,
    status: Option<int>,
    year: Option<int>)

  /** The arguments of one upstream call: the filters plus the reconciled upstream page. */
  datatype Query = Query(filters: Filters, page: int)

  /** The decoded body: either not a JSON object, or its `movies` field (absent or null is `None`). */
  datatype Body = Malformed | Decoded(movies: Option<seq<Record>>)

  /** What the HTTP client hands back: no response at all, or a status and body. */
  datatype Response = NoResponse | HttpResponse(ok: bool, text: string, body: Body)

  /** The exceptions the client raises. */
  datatype Failure = Unreachable | Rejected(text: string) | Undecodable

  /** The `movies` list of a successful call; absent is `None`. */
  type Movies = Option<seq<Record>>

  /**
   * The client's verdict on one exchange: no response raises a connectivity
   * error, a failing status raises with the response text, a body that is not
   * a JSON object raises while decoding, and otherwise the `movies` field.
   */
  function Request(res: Response): (r: Result<Movies, Failure>)
    ensures r.Ok? <==> res.HttpResponse? && res.ok && res.body.Decoded?
    ensures r.Ok? ==> r.value == res.body.movies
    ensures res.NoResponse? <==> r == Err(Unreachable)
    ensures res.HttpResponse? && !res.ok ==> r == Err(Rejected(res.text))
  {
    match res
    case NoResponse => Err(Unreachable)
    case HttpResponse(ok, text, body) =>
      if !ok then Err(Rejected(text))
      else match body
        case Malformed => Err(Undecodable)
        case Decoded(movies) => Ok(movies)
  }
}
